=== FILE: README.md ===
# Dapper extensions for .NET: a Dafny model

This project models the pure core of the `Belin.Dapper` library, a set of
extensions to the Dapper micro-ORM:

- how an entity type resolves to a table name, and which SQL text the
  count, delete-all, truncate and fetch-all extension methods send to Dapper;
- the column-to-property selector of `ColumnAttributeTypeMap<T>`, and the
  order in which it consults its custom map and Dapper's default map;
- the read and write guards of `StringEnumTypeHandler<T>` and
  `UriTypeHandler`, and their round trips;
- the database adapters, as one `Dialect` datatype: identifier escaping and
  the statement that fetches the last inserted identifier.

Modules, one file each:

- `Wrappers`: `Option` and `Result`.
- `Decimal`: decimal digit text.
- `Formatting`: `string.Format` restricted to plain `{n}` placeholders and
  doubled braces, plus `string.Join`.
- `Entities`: a descriptor that stands in for reflection. It holds the type
  name, the optional `[Table]` name and the properties with their optional
  `[Column]` names.
- `Statements`: the SQL templates, the projection rule, and the commands the
  facade hands to Dapper.
- `Samples`: the test suite's expected strings.
- `Search`: LINQ's `FirstOrDefault` as a first-index search.
- `ColumnMapping`: the selector and the fallback rules.
- `DbValues`: the shared "non-empty string" guard and the `?.ToString()` store.
- `StringEnumHandler`: the enumeration handler, with `Enum.Parse` and
  `Enum.ToString` modelled concretely.
- `UriHandler`: the URI handler. `System.Uri` is abstract.
- `Dialects`: the adapters.

Foreign code is passed in as function-valued datatype fields, so the model
claims nothing about its internals. This covers Dapper's `CustomPropertyTypeMap`
and `DefaultTypeMap` (`TypeMap`) and `System.Uri` (`UriLibrary`).

The `FetchAllQuery` template is not declared in src/SqlMapperExtensions.cs. It
is taken as `SELECT {0} FROM {1}`, the plain shape that produces the expected strings at
test/SqlMapperExtensionsTest.cs:45-48.

The source handles two cases differently:

- On a missing or empty value, the enumeration handler returns `default(T)`,
  which is the value `0`.
- On a missing or empty value, the URI handler returns `null`.

The model keeps them apart: `Success(0)` for the first, and
`Success(None)` for the second.

## Model

| member | source | states |
|---|---|---|
| Entities.TableName | src/SqlMapperExtensions.cs:53-56 | `GetTableName<T>`: the `[Table]` name when the type carries the attribute, otherwise the type's bare name. |
| Entities.TableNameResolution | src/SqlMapperExtensions.cs:53-56 | The table name is the `[Table]` name when there is one, else the type's bare name. It never fails. Properties never influence it, and with a `[Table]` attribute the type's own name does not either. |
| Entities.PlainTypeTable | src/SqlMapperExtensions.cs:55 | A type without `[Table]` maps to the table of its own name. |
| Entities.SampleTableNames | test/SqlMapperExtensionsTest.cs:71-75 | `AttributedEntity` resolves to `Entities`, `PlainEntity` to `PlainEntity`. |
| Formatting.Format | src/SqlMapperExtensions.Sync.cs:17 | `string.Format`: a template without braces formats to itself. The placeholder and error cases are the lemmas below. |
| Formatting.FormatLiteral | src/SqlMapperExtensions.Sync.cs:17 | `string.Format` copies brace-free template text to the output unchanged, whatever follows it. |
| Formatting.FormatHole | src/SqlMapperExtensions.Sync.cs:17 | A one-digit `{i}` placeholder is replaced by argument `i` verbatim. Braces inside the argument are not interpreted. |
| Formatting.FormatIndexOutOfRange | src/SqlMapperExtensions.Sync.cs:36 | A placeholder naming a missing argument makes `string.Format` fail with a `FormatException`. |
| Formatting.FormatStrayClose | src/SqlMapperExtensions.Sync.cs:36 | An undoubled `}` in a template makes `string.Format` fail with a `FormatException`. |
| Formatting.Join | src/SqlMapperExtensions.Sync.cs:36 | `string.Join`: the output length is the items' total length plus one separator between each adjacent pair. `Formatting.JoinConcat` fixes the contents. |
| Formatting.JoinConcat | src/SqlMapperExtensions.Sync.cs:36 | Joining two non-empty lists in sequence gives the join of each with one separator between them. Every item is written verbatim and in order, commas included. |
| Statements.Render | src/SqlMapperExtensions.cs:15-30 | A count, delete-all or truncate statement is the fixed lead text of its kind followed by the table name verbatim, with no escaping and nothing after it. |
| Statements.RenderFormats | src/SqlMapperExtensions.cs:15-30 | Each of the count, delete-all and truncate templates, formatted with a table name, gives the fixed lead text followed by the table name verbatim, with no escaping. |
| Statements.RenderRecognised | src/SqlMapperExtensions.cs:15-30 | A rendered statement is recognised as its own kind only, and the recogniser recovers exactly the table name it was rendered with. |
| Statements.RenderInjective | src/SqlMapperExtensions.cs:15-30 | Two rendered statements are equal only when kind and table name are both equal. |
| Statements.Projection | src/SqlMapperExtensions.Sync.cs:36 | The projection is `*` for no columns and the column itself for one, even an empty one. Otherwise its length is the columns' total plus 2 per join. `Statements.ProjectionAppend` fixes the contents. |
| Statements.ProjectionAppend | src/SqlMapperExtensions.Sync.cs:36 | Appending a column to a non-empty list appends `", "` and that column verbatim. With the one-column case, this fixes the projection of every list, including columns such as `COALESCE(a, b) AS x`. |
| Statements.SplitProjection | src/SqlMapperExtensions.Sync.cs:36 | Splitting a projection at `", "` gives back the caller's columns in order and unchanged, when no column contains a comma. |
| Statements.SplitSingle | src/SqlMapperExtensions.Sync.cs:36 | A single comma-free column is read back from the projection whole. |
| Statements.SplitStep | src/SqlMapperExtensions.Sync.cs:36 | A comma-free column followed by the join's `", "` is split off at that comma. |
| Statements.ProjectionAmbiguous | src/SqlMapperExtensions.Sync.cs:36 | Columns are not validated. `["Id, Name"]` renders like `["Id", "Name"]`, `["*"]` like no columns, and `[""]` as the empty projection. |
| Statements.RenderFetchAllFormats | src/SqlMapperExtensions.Sync.cs:36 | The fetch-all template, formatted with the projection and the table, is `SELECT <projection> FROM <table>`. |
| Statements.FetchAllTemplatePieces | test/SqlMapperExtensionsTest.cs:45-48 | The fetch-all template is `SELECT `, placeholder 0, ` FROM `, placeholder 1. That is the shape the expected strings fix. |
| Statements.Count | src/SqlMapperExtensions.Sync.cs:16-17 | `Count<T>` is a scalar query with no bound parameters, and its text is recognised as a count of the resolved table. |
| Statements.DeleteAll | src/SqlMapperExtensions.Sync.cs:25-26 | `DeleteAll<T>` executes with no bound parameters, and its text is recognised as a delete-all of the resolved table. |
| Statements.Truncate | src/SqlMapperExtensions.Sync.cs:43-44 | `Truncate<T>` executes with no bound parameters, and its text is recognised as a truncate of the resolved table. It is the same for every backend. |
| Statements.FetchAll | src/SqlMapperExtensions.Sync.cs:35-36 | `FetchAll<T>` is a row query with no bound parameters. Its text is `SELECT ` + projection + ` FROM ` + table, 13 characters longer than the projection and the table name together. |
| Statements.CountText | src/SqlMapperExtensions.Sync.cs:16-17 | The count text is `string.Format(CountQuery, table)`, which is `SELECT COUNT(*) FROM ` followed by the table name. |
| Statements.DeleteAllText | src/SqlMapperExtensions.Sync.cs:25-26 | The delete-all text is `string.Format(DeleteAllQuery, table)`, which is `DELETE FROM ` followed by the table name, with no `WHERE`. |
| Statements.TruncateText | src/SqlMapperExtensions.Sync.cs:43-44 | The truncate text is `string.Format(TruncateQuery, table)`, which is `TRUNCATE TABLE ` followed by the table name. |
| Statements.FetchAllText | src/SqlMapperExtensions.Sync.cs:35-36 | The fetch-all text is `string.Format(FetchAllQuery, projection, table)`, which is `SELECT ` + projection + ` FROM ` + table. |
| Statements.FetchAllCanCount | src/SqlMapperExtensions.Sync.cs:16-36 | The unvalidated projection `COUNT(*)` makes fetch-all send exactly the count statement. |
| Statements.TwoColumnProjection | src/SqlMapperExtensions.Sync.cs:36 | Two columns are joined as `first, second`. |
| Samples.SampleCount | test/SqlMapperExtensionsTest.cs:17-21 | The count statements of the two sample entities are the expected texts. |
| Samples.SampleDeleteAll | test/SqlMapperExtensionsTest.cs:29-33 | The delete-all statements of the two sample entities are the expected texts. |
| Samples.SampleTruncate | test/SqlMapperExtensionsTest.cs:77-81 | The truncate statements of the two sample entities are the expected texts. |
| Samples.SampleFetchAll | test/SqlMapperExtensionsTest.cs:45-46 | With no columns, fetch-all selects `*` from `Entities` and from `PlainEntity`. |
| Samples.SampleFetchAllColumnsAttributed | test/SqlMapperExtensionsTest.cs:47 | `Id AS Alias` and `Name` pass through literally into the `Entities` fetch-all. |
| Samples.SampleFetchAllColumnsPlain | test/SqlMapperExtensionsTest.cs:48 | `Id AS Alias` and `Name` pass through literally into the `PlainEntity` fetch-all. |
| Search.FirstIndex | src/ColumnAttributeTypeMap.cs:17 | `FirstOrDefault` finds an element satisfying the predicate, with none satisfying it before. It finds nothing exactly when no element satisfies it. |
| Search.FirstIndexUnique | src/ColumnAttributeTypeMap.cs:17 | The first match is unique: an index that satisfies the predicate with no earlier match is the one found. |
| ColumnMapping.Matches | src/ColumnAttributeTypeMap.cs:17 | A matching property is an instance property whose `[Column]` name is the column name. A property without a `[Column]` name never matches. |
| ColumnMapping.SelectProperty | src/ColumnAttributeTypeMap.cs:15-18 | The selected property is an instance property of the type whose `[Column]` name equals the column exactly. It is the first such property in enumeration order. There is no selection exactly when no instance property carries that name. |
| ColumnMapping.VisibilityIrrelevant | src/ColumnAttributeTypeMap.cs:16 | Non-public properties are searched like public ones: changing visibility does not change which property is selected. |
| ColumnMapping.FindConstructor | src/ColumnAttributeTypeMap.cs:31-34 | The custom answer stands whenever the custom map does not throw, a null answer included. The default map answers only after an exception. The call throws only when both maps throw. |
| ColumnMapping.FindExplicitConstructor | src/ColumnAttributeTypeMap.cs:40-43 | A non-null custom answer wins and a custom exception propagates. A null custom answer defers to the default map. The result is null exactly when both answers are null. |
| ColumnMapping.GetConstructorParameter | src/ColumnAttributeTypeMap.cs:51-54 | Same rule as `FindConstructor`: the default map is used only after the custom map throws. |
| ColumnMapping.GetMember | src/ColumnAttributeTypeMap.cs:61-64 | Same rule as `FindExplicitConstructor`: the default map is used only when the custom answer is null. |
| ColumnMapping.FallbackRulesDiffer | src/ColumnAttributeTypeMap.cs:31-64 | The `try`/`catch` rule and the `??` rule differ exactly when the custom map answers null (and the default differs) or throws (and the default answers differently). |
| ColumnMapping.CustomPropertyMap | src/ColumnAttributeTypeMap.cs:15-18 | The custom map never throws on a member lookup. It answers null exactly when the selector finds nothing, otherwise the member map of the selected property. Its constructor lookups are the base map's, unchanged. |
| ColumnMapping.AnnotatedPropertyWins | src/ColumnAttributeTypeMap.cs:15-64 | Through `GetMember`, the first instance property annotated with the column's name is the answer, and the default map is never asked. |
| ColumnMapping.UnannotatedColumnFallsBack | src/ColumnAttributeTypeMap.cs:61-64 | When no instance property is annotated with the column's name, `GetMember` answers whatever the default map answers. |
| ColumnMapping.SampleSelections | src/ColumnAttributeTypeMap.cs:17 | On the sample entities, `Name` selects `EntityName` and `Id` selects `EntityId`. A property's own name (`EntityName`) and a different case (`name`) select nothing. No column at all selects a property of the attribute-free type. |
| DbValues.ParseableText | src/UriTypeHandler.cs:24-25 | The shared guard: there is text to parse exactly when the value is a string of length above zero, and that text is the string itself. |
| DbValues.Store | src/UriTypeHandler.cs:16-17 | `value?.ToString()` stores null exactly for null, and the value's string form otherwise. |
| StringEnumHandler.NewStringEnumTypeHandler | src/TypeHandlers/StringEnumTypeHandler.cs:12 | A handler built without arguments is case-sensitive. |
| StringEnumHandler.EnumParse | src/TypeHandlers/StringEnumTypeHandler.cs:20 | `Enum.Parse` trims the text. A decimal number is the value it spells. Otherwise it fails exactly when no member name matches under the case flag, and gives the value of a matching member when one does. |
| StringEnumHandler.EnumToString | src/TypeHandlers/StringEnumTypeHandler.cs:28 | `Enum.ToString` gives the name of a member carrying the value when there is one, and the value in decimal otherwise. |
| StringEnumHandler.Parse | src/TypeHandlers/StringEnumTypeHandler.cs:19-20 | A non-string or empty value reads as `default(T)`, the value 0. A non-empty string goes to `Enum.Parse` with the handler's case flag, and its failure propagates. |
| StringEnumHandler.SetValue | src/TypeHandlers/StringEnumTypeHandler.cs:27-28 | Null is stored as null. A value is stored as its `ToString` text: the name of a member with that value, else its decimal text. |
| StringEnumHandler.ParseIdentifier | src/TypeHandlers/StringEnumTypeHandler.cs:20 | A parsable name is read by name alone. A parsable name is non-empty, does not start with a digit or sign, holds no comma, and has no `char.IsWhiteSpace` character at either end. It may hold non-ASCII letters when case matters. With case ignored, names and text are ASCII. It fails exactly when no member matches under the case flag. Otherwise it gives a matching member's value, and when only one member matches, that member's value. |
| StringEnumHandler.ParseMemberName | src/TypeHandlers/StringEnumTypeHandler.cs:20 | The name of each member of an enumeration with distinct names parses to that member's value. When case is ignored, this needs ASCII names that stay distinct ignoring case. |
| StringEnumHandler.RoundTrip | src/TypeHandlers/StringEnumTypeHandler.cs:19-28 | For every value, named or not, `Parse` of what `SetValue` stores gives back the same value. This holds for any enumeration with distinct names, and when case is ignored, for ASCII names distinct ignoring case. |
| StringEnumHandler.NonAsciiName | src/TypeHandlers/StringEnumTypeHandler.cs:19-28 | A member named `Größe` round-trips under the default case-sensitive handler. |
| StringEnumHandler.UnknownNameFails | src/TypeHandlers/StringEnumTypeHandler.cs:20 | A parsable name (no comma, no white space of any kind at either end) that no member carries is an `ArgumentException`, not `default(T)`. When case matters, this holds for non-ASCII names too. With case ignored, it is stated for ASCII names and text. |
| StringEnumHandler.MissingReadsAsZero | src/TypeHandlers/StringEnumTypeHandler.cs:19-20 | A non-string, the empty string and the name of a zero-valued member all read as 0, so they cannot be told apart. |
| StringEnumHandler.CaseSensitivity | src/TypeHandlers/StringEnumTypeHandler.cs:12-20 | `ACTIVE` finds member `Active` only when case is ignored. The default handler fails on it. |
| Decimal.ParseShowNat | src/TypeHandlers/StringEnumTypeHandler.cs:20-28 | The decimal text of a natural number reads back as that number. |
| Decimal.ParseShowInt | src/TypeHandlers/StringEnumTypeHandler.cs:20-28 | The decimal text of an unnamed value, sign included, reads back as that value. |
| UriHandler.NewUriTypeHandler | src/UriTypeHandler.cs:9 | A handler built without a kind parses absolute URIs, and one built with a kind uses that kind. |
| UriHandler.Parse | src/UriTypeHandler.cs:24-25 | A non-string or empty value reads as null, and only then. A non-empty string becomes the URI the constructor builds with the handler's kind. It fails exactly when the constructor fails. |
| UriHandler.SetValue | src/UriTypeHandler.cs:16-17 | Null is stored as null, a URI as its string form. |
| UriHandler.RoundTrip | src/UriTypeHandler.cs:16-25 | A stored URI reads back as the same URI, given that the library rebuilds a URI from its own non-empty string form. |
| UriHandler.EmptyFormReadsNull | src/UriTypeHandler.cs:16-25 | A URI whose string form is empty is stored as the empty string, and that reads back as null, not as the URI. |
| UriHandler.NormalisedText | test/TypeHandlers/UriTypeHandlerTest.cs:12-37 | Text does not round-trip: with a library that appends `/` when printing, `https://belin.io` reads as a URI that is stored as `https://belin.io/`. |
| Dialects.LastInsertIdQuery | src/Adapters/SqlAdapter.cs:8-11 | Every adapter class has a last-insert-id statement, except the escape-only src/Adapters/SqlServerAdapter.cs and src/Adapters/MySqlAdapter.cs. |
| Dialects.EscapeIdentifier | src/SqlAdapters/SqliteAdapter.cs:13-18 | All five `EscapeIdentifier` methods: the result is two characters longer, opens and closes with the adapter's quotes (double quotes, backticks or brackets), and holds the identifier verbatim in between. |
| Dialects.EscapeAddsOnlyQuotes | src/Adapters/SqlAdapter.cs:13-18 | Escaping adds the two quotes and no other character, so quotes inside the identifier are not doubled. |
| Dialects.UnescapeInverts | src/SqlAdapters/SqliteAdapter.cs:13-18 | Stripping the quotes recovers the identifier, and whatever is accepted is the escaped form of what is returned. |
| Dialects.EscapeInjective | src/Adapters/MySqlAdapter.cs:8-13 | Two escaped identifiers are equal exactly when both the quoting family and the identifier are equal. Backtick, bracket and double-quote forms never coincide. |
| Dialects.DuplicatesAgree | src/Adapters/SqlServerAdapter.cs:13 | The duplicated SQL Server and MySQL adapter classes escape every identifier alike. |
| Dialects.SampleEscapes | src/SqlAdapters/MySqlAdapter.cs:11-18 | `Foo` escapes to `` `Foo` ``, `"Foo"` and `[Foo]`, and `a]b` to `[a]b]`. The MySQL and SQL Server statements are their fixed texts. |
| Dialects.SqliteLastInsertId | src/SqlAdapters/SqliteAdapter.cs:11-18 | The SQLite statement is `SELECT last_insert_rowid() AS "Id"`, the column escaped by the adapter's own quoting. |

## Left out

- Execution: running a command (`ExecuteScalar`, `Execute`, `Query`) is I/O. Each operation yields the command it would hand to Dapper, and the results of running it are not modelled.
- src/SqlMapperExtensions.Async.cs: its three methods format the same count, delete-all and truncate templates as the synchronous ones and only await execution. It has no counterpart of `FetchAll`.
- Reflection: `GetCustomAttribute` and `GetProperties` are replaced by the `EntityType` descriptor. A `[Column]` attribute without a name, and a `null` column name, are both treated as `column == None`.
- Inserts, updates, fetch-by-id, delete-by-id, key and mapped-property resolution, `IsDatabaseGenerated` and `GetColumnName`: the test suite asserts them, but the source has no implementation. `DeleteQuery` and the column helpers are commented out at src/SqlMapperExtensions.cs:20 and 38-46.
- The test suite's `GetCountQuery` and related helpers are not in the source. The `Samples` lemmas state their expected strings against the text of the extension methods instead.
- MailAddressTypeHandler is not part of this model.
- Dapper's `CustomPropertyTypeMap`, `DefaultTypeMap`, `SimpleMemberMap` and constructor discovery are foreign. They are arbitrary functions of a `TypeMap`, apart from the custom member lookup, which is built from the selector.
- `System.Uri` construction, validation and normalisation are foreign. They are the arbitrary functions of a `UriLibrary`, and no URI grammar is modelled.
- UriHandler.RoundTrip: it holds only for libraries that rebuild a URI from its printed form, because `System.Uri` is abstract here. It also needs a non-empty printed form: an empty one reads back as null, which `UriHandler.EmptyFormReadsNull` states.
- StringEnumHandler.EnumParse: comma-separated name lists, which `Enum.Parse` splits and combines with a bitwise or whether or not the type has `[Flags]`, are not modelled. Here such text fails unless it is a single name. Values outside the range of the underlying integer type are not modelled either, and numeric text is read as an unbounded integer. The model trims only ASCII white space, where .NET trims every `char.IsWhiteSpace` character around a name. It also folds only ASCII letters when case is ignored. The lemmas about names therefore cover only text without a comma and without white space of any kind at either end.
- StringEnumHandler.EnumToString: a `[Flags]` combination that no single member carries is written by .NET as a name list such as `A, B`. `EnumToString` writes it as decimal text.
- StringEnumHandler.ParseMemberName: with case ignored it is stated only for ASCII names that stay distinct ignoring case, because the model folds ASCII letters only. .NET folds other letters too, so non-ASCII names may collide there when they do not in the model.
- StringEnumHandler.RoundTrip: the same ASCII restriction applies when case is ignored, for the same reason.
- StringEnumHandler.MissingReadsAsZero: the same ASCII restriction applies when case is ignored, for the same reason.
- StringEnumHandler.ParseIdentifier: it is stated only for text with no comma and no white space of any kind at either end, for the reasons on the `StringEnumHandler.EnumParse` line: .NET reads `A,B` as a combined value and trims U+00A0. With case ignored it is stated only for ASCII names and ASCII text, because the model folds ASCII letters only and .NET's ordinal ignore-case comparison also matches letters such as `ö` and `Ö`. When several names match ignoring case, .NET takes the match that comes first in value order. The model's `EnumParse` takes the first one declared. The contracts promise only some matching member, and the exact value only when one member matches.
- StringEnumHandler.UnknownNameFails: like `StringEnumHandler.ParseIdentifier`, it is stated only for text with no comma and no white space at either end. With case ignored, it is stated only for ASCII names and ASCII text. Outside ASCII, .NET may find a member the model does not.
- StringEnumHandler.SetValue: when several members share a value, .NET leaves unspecified which name `ToString` returns. The model's `EnumToString` takes the first one declared. The contracts promise only some member with that value.
- Statements.Projection: `params string[] columns` may hold null entries, which `string.Join` writes as empty text. A null array makes `columns.Length` throw. A `seq<string>` can express neither, so neither is modelled.
- `string.Format`: alignment and format-string components (`{0,5}`, `{0:X}`) and placeholders with white space are not modelled. They are a `FormatException` here, and the templates do not use them.
- The adapter interfaces src/SqlAdapters/ISqlAdapter.cs and src/Adapters/ISqlAdapter.cs declare no behaviour. They give the `Dialect` functions their shape.

=== FILE: column_map.dfy ===
/** `ColumnAttributeTypeMap<T>`: resolves a result column to a property of `T`
    by the `[Column]` attribute first, and falls back to Dapper's default map.
    Dapper's maps are foreign code: they enter the model as `TypeMap` values
    whose members are arbitrary functions. The repository's own logic is the
    property selector and the order in which the two maps are consulted. */
module ColumnMapping {
  import opened Wrappers
  import opened Entities
  import opened Search

  /** The selector's test: an instance property, public or not, whose
      `[Column]` name is exactly the requested column name. The property's own
      name plays no part. */
  predicate Matches(p: Property, columnName: string)
    ensures Matches(p, columnName) ==> p.column == Some(columnName) && !p.isStatic
    ensures p.column.None? ==> !Matches(p, columnName)
  {
    !p.isStatic && p.column == Some(columnName)
  }

  /** The selector the custom map is built with: `FirstOrDefault` over the
      instance properties of the type, `null` when none matches. */
  function SelectProperty(t: EntityType, columnName: string): (r: Option<Property>)
    ensures r.Some? ==> r.value in t.properties && r.value.column == Some(columnName) && !r.value.isStatic
    ensures r.None? <==> forall p :: p in t.properties && !p.isStatic ==> p.column != Some(columnName)
    ensures r.Some? ==> exists i :: (0 <= i < |t.properties| && r.value == t.properties[i]
                                    && forall j :: 0 <= j < i ==> !Matches(t.properties[j], columnName))
  {
    match FirstIndex(t.properties, p => Matches(p, columnName))
    case Some(i) => Some(t.properties[i])
    case None => None
  }

  /** Visibility does not matter: non-public properties are searched like
      public ones, so changing any property's visibility changes nothing. */
  lemma VisibilityIrrelevant(t: EntityType, t': EntityType, columnName: string)
    requires t'.name == t.name && t'.table == t.table && |t'.properties| == |t.properties|
    requires forall i :: 0 <= i < |t.properties| ==> t'.properties[i] == t.properties[i].(isPublic := t'.properties[i].isPublic)
    ensures SelectProperty(t', columnName).Some? <==> SelectProperty(t, columnName).Some?
    ensures SelectProperty(t', columnName).Some? ==>
      SelectProperty(t', columnName).value == SelectProperty(t, columnName).value.(isPublic := SelectProperty(t', columnName).value.isPublic)
  {
    var p := (q: Property) => Matches(q, columnName);
    match FirstIndex(t.properties, p)
    case Some(i) =>
      assert p(t'.properties[i]);
      FirstIndexUnique(t'.properties, p, i);
    case None =>
      assert FirstIndex(t'.properties, p).None?;
  }

  /** An exception thrown by one of Dapper's maps. */
  datatype MapError = MapError(message: string)

  /** `SqlMapper.ITypeMap`: each member returns a result, `None` for `null`,
      or throws. `Ctor` stands for a constructor, `Member` for a member map. */
  datatype TypeMap<!Ctor, Member> = TypeMap(
    findConstructor: (seq<string>, seq<string>) -> Result<Option<Ctor>, MapError>,
    findExplicitConstructor: Result<Option<Ctor>, MapError>,
    getConstructorParameter: (Ctor, string) -> Result<Option<Member>, MapError>,
    getMember: string -> Result<Option<Member>, MapError>)

  /** The two maps the class holds: the custom one first, the default one as fallback. */
  datatype ColumnAttributeTypeMap<!Ctor, Member> = ColumnAttributeTypeMap(
    custom: TypeMap<Ctor, Member>,
    fallback: TypeMap<Ctor, Member>)

  /** `try { return first; } catch { return second; }`: any exception of the
      first call is swallowed, but a `null` it returns is final. */
  function OnThrow<X>(first: Result<X, MapError>, second: Result<X, MapError>): Result<X, MapError>
  {
    match first
    case Success(_) => first
    case Failure(_) => second
  }

  /** `first ?? second`, with `first` evaluated outside any `try`: a `null`
      falls back, an exception propagates. */
  function OnNull<X>(first: Result<Option<X>, MapError>, second: Result<Option<X>, MapError>): Result<Option<X>, MapError>
  {
    match first
    case Success(None) => second
    case _ => first
  }

  /** `FindConstructor`: the custom answer stands whenever the custom map does
      not throw, `null` included; the default map answers only after an
      exception, and the call throws only when both maps throw. */
  function FindConstructor<C, M>(m: ColumnAttributeTypeMap<C, M>, names: seq<string>, types: seq<string>): (r: Result<Option<C>, MapError>)
    ensures m.custom.findConstructor(names, types).Success? ==> r == m.custom.findConstructor(names, types)
    ensures m.custom.findConstructor(names, types).Failure? ==> r == m.fallback.findConstructor(names, types)
    ensures r.Failure? <==> m.custom.findConstructor(names, types).Failure? && m.fallback.findConstructor(names, types).Failure?
  {
    OnThrow(m.custom.findConstructor(names, types), m.fallback.findConstructor(names, types))
  }

  /** `FindExplicitConstructor`: a non-null custom answer wins, a null one
      defers to the default map, and an exception of the custom map is not
      caught. The answer is null only when both maps answer null. */
  function FindExplicitConstructor<C, M>(m: ColumnAttributeTypeMap<C, M>): (r: Result<Option<C>, MapError>)
    ensures m.custom.findExplicitConstructor.Failure? ==> r == m.custom.findExplicitConstructor
    ensures m.custom.findExplicitConstructor.Success? && m.custom.findExplicitConstructor.value.Some? ==> r == m.custom.findExplicitConstructor
    ensures m.custom.findExplicitConstructor == Success(None) ==> r == m.fallback.findExplicitConstructor
    ensures r == Success(None) <==> m.custom.findExplicitConstructor == Success(None) && m.fallback.findExplicitConstructor == Success(None)
  {
    OnNull(m.custom.findExplicitConstructor, m.fallback.findExplicitConstructor)
  }

  /** `GetConstructorParameter`: the same `try`/`catch` rule as `FindConstructor`. */
  function GetConstructorParameter<C, M>(m: ColumnAttributeTypeMap<C, M>, ctor: C, columnName: string): (r: Result<Option<M>, MapError>)
    ensures m.custom.getConstructorParameter(ctor, columnName).Success? ==> r == m.custom.getConstructorParameter(ctor, columnName)
    ensures m.custom.getConstructorParameter(ctor, columnName).Failure? ==> r == m.fallback.getConstructorParameter(ctor, columnName)
    ensures r.Failure? <==> m.custom.getConstructorParameter(ctor, columnName).Failure? && m.fallback.getConstructorParameter(ctor, columnName).Failure?
  {
    OnThrow(m.custom.getConstructorParameter(ctor, columnName), m.fallback.getConstructorParameter(ctor, columnName))
  }

  /** `GetMember`: the same `??` rule as `FindExplicitConstructor`. */
  function GetMember<C, M>(m: ColumnAttributeTypeMap<C, M>, columnName: string): (r: Result<Option<M>, MapError>)
    ensures m.custom.getMember(columnName).Failure? ==> r == m.custom.getMember(columnName)
    ensures m.custom.getMember(columnName).Success? && m.custom.getMember(columnName).value.Some? ==> r == m.custom.getMember(columnName)
    ensures m.custom.getMember(columnName) == Success(None) ==> r == m.fallback.getMember(columnName)
    ensures r == Success(None) <==> m.custom.getMember(columnName) == Success(None) && m.fallback.getMember(columnName) == Success(None)
  {
    OnNull(m.custom.getMember(columnName), m.fallback.getMember(columnName))
  }

  /** The two fallback rules differ exactly on a `null` from the custom map:
      the `try`/`catch` lookups keep it, the `??` lookups replace it. */
  lemma FallbackRulesDiffer<X>(first: Result<Option<X>, MapError>, second: Result<Option<X>, MapError>)
    ensures OnThrow(first, second) != OnNull(first, second) <==>
      (first == Success(None) && second != Success(None)) || (first.Failure? && second != first)
  {
  }

  /** The custom map of the class: Dapper's `CustomPropertyTypeMap` over the
      selector. Its member lookup wraps the selected property with `wrap`
      (Dapper's `SimpleMemberMap`), or answers `null`; its other members are
      Dapper's and stay as given in `base`. */
  function CustomPropertyMap<C, M>(base: TypeMap<C, M>, t: EntityType, wrap: (string, Property) -> M): (m: TypeMap<C, M>)
    ensures m.findConstructor == base.findConstructor && m.findExplicitConstructor == base.findExplicitConstructor
    ensures m.getConstructorParameter == base.getConstructorParameter
    ensures forall columnName :: m.getMember(columnName).Success?
    ensures forall columnName :: m.getMember(columnName) == Success(None) <==> SelectProperty(t, columnName).None?
    ensures forall columnName :: SelectProperty(t, columnName).Some? ==>
      m.getMember(columnName) == Success(Some(wrap(columnName, SelectProperty(t, columnName).value)))
  {
    base.(getMember := columnName =>
      match SelectProperty(t, columnName)
      case Some(p) => Success(Some(wrap(columnName, p)))
      case None => Success(None))
  }

  /** End to end: an instance property whose `[Column]` name is the column
      wins, the first such one in enumeration order; only when there is none
      is the default map asked. */
  lemma AnnotatedPropertyWins<C, M>(base: TypeMap<C, M>, fallback: TypeMap<C, M>, t: EntityType, wrap: (string, Property) -> M, columnName: string, i: nat)
    requires i < |t.properties| && Matches(t.properties[i], columnName)
    requires forall j :: 0 <= j < i ==> !Matches(t.properties[j], columnName)
    ensures GetMember(ColumnAttributeTypeMap(CustomPropertyMap(base, t, wrap), fallback), columnName)
      == Success(Some(wrap(columnName, t.properties[i])))
  {
    FirstIndexUnique(t.properties, p => Matches(p, columnName), i);
    assert SelectProperty(t, columnName) == Some(t.properties[i]);
    var custom := CustomPropertyMap(base, t, wrap);
    assert custom.getMember(columnName) == Success(Some(wrap(columnName, t.properties[i])));
  }

  lemma UnannotatedColumnFallsBack<C, M>(base: TypeMap<C, M>, fallback: TypeMap<C, M>, t: EntityType, wrap: (string, Property) -> M, columnName: string)
    requires forall p :: p in t.properties ==> !Matches(p, columnName)
    ensures GetMember(ColumnAttributeTypeMap(CustomPropertyMap(base, t, wrap), fallback), columnName)
      == fallback.getMember(columnName)
  {
    assert SelectProperty(t, columnName).None?;
  }

  /** On the sample types: `Name` selects `EntityName` through its attribute;
      a property's own name is never selected, neither is a different case, and
      no column at all selects a property of the type without attributes. */
  lemma SampleSelections()
    ensures SelectProperty(AttributedEntity, "Name") == Some(AttributedEntity.properties[1])
    ensures SelectProperty(AttributedEntity, "Id") == Some(AttributedEntity.properties[0])
    ensures SelectProperty(AttributedEntity, "EntityName").None?
    ensures SelectProperty(AttributedEntity, "name").None?
    ensures forall columnName :: SelectProperty(PlainEntity, columnName).None?
  {
    assert AttributedEntity.properties[0].column == Some("Id");
    assert AttributedEntity.properties[1].column == Some("Name");
  }
}

=== FILE: db_values.dfy ===
/** The two halves every type handler has: reading a value the data reader
    produced, and writing a parameter value before a command runs. */
module DbValues {
  import opened Wrappers

  /** A value as the data reader hands it over: a string, or anything else
      (a number, `DBNull`, ...). */
  datatype DbValue = Text(text: string) | NonText

  /** The guard both handlers put in front of parsing,
      `value is string s && s.Length > 0`: the string to parse, if any. */
  function ParseableText(value: DbValue): (r: Option<string>)
    ensures r.Some? <==> value.Text? && |value.text| > 0
    ensures r.Some? ==> value == Text(r.value)
  {
    match value
    case Text(s) => if |s| > 0 then Some(s) else None
    case NonText => None
  }

  /** `parameter.Value = value?.ToString()`: `null` is stored as `null`,
      anything else as its string form. */
  function Store<V>(value: Option<V>, show: V -> string): (stored: Option<string>)
    ensures stored.None? <==> value.None?
    ensures value.Some? ==> stored == Some(show(value.value))
  {
    match value
    case Some(v) => Some(show(v))
    case None => None
  }
}

=== FILE: decimal.dfy ===
/** Decimal digit strings: the numeric text that `string.Format` reads inside a
    placeholder and that `Enum.ToString`/`Enum.Parse` write and read for values
    that have no member name. */
module Decimal {
  import opened Wrappers

  predicate IsDigit(c: char) {
    '0' <= c <= '9'
  }

  predicate AllDigits(s: string) {
    forall i :: 0 <= i < |s| ==> IsDigit(s[i])
  }

  function DigitValue(c: char): (d: nat)
    requires IsDigit(c)
    ensures d < 10
  {
    c as int - '0' as int
  }

  function DigitChar(d: nat): (c: char)
    requires d < 10
    ensures IsDigit(c) && DigitValue(c) == d
  {
    ('0' as int + d) as char
  }

  /** The value of a digit string, most significant digit first. */
  function ParseDigits(s: string): nat
    requires AllDigits(s)
  {
    if |s| == 0 then 0 else ParseDigits(s[..|s| - 1]) * 10 + DigitValue(s[|s| - 1])
  }

  /** The shortest decimal text of `n`. */
  function ShowNat(n: nat): (s: string)
    ensures 0 < |s| && AllDigits(s)
    ensures |s| > 1 ==> s[0] != '0'
  {
    if n < 10 then [DigitChar(n)] else ShowNat(n / 10) + [DigitChar(n % 10)]
  }

  lemma {:induction false} ParseShowNat(n: nat)
    ensures ParseDigits(ShowNat(n)) == n
  {
    var s := ShowNat(n);
    if n >= 10 {
      ParseShowNat(n / 10);
      assert s[..|s| - 1] == ShowNat(n / 10);
    }
  }

  /** Invariant-culture text of an integer: a leading `-` for negative values. */
  function ShowInt(i: int): (s: string)
    ensures 0 < |s|
  {
    if i < 0 then "-" + ShowNat(-i) else ShowNat(i)
  }

  /** Reads an optionally signed run of decimal digits; `None` for any other text. */
  function ParseInt(s: string): (r: Option<int>)
    ensures r.Some? ==> 0 < |s| && (IsDigit(s[0]) || s[0] == '-' || s[0] == '+')
  {
    if |s| > 1 && (s[0] == '-' || s[0] == '+') && AllDigits(s[1..]) then
      var magnitude: int := ParseDigits(s[1..]);
      Some(if s[0] == '-' then -magnitude else magnitude)
    else if 0 < |s| && AllDigits(s) then
      Some(ParseDigits(s))
    else
      None
  }

  lemma ParseShowInt(i: int)
    ensures ParseInt(ShowInt(i)) == Some(i)
  {
    if i < 0 {
      ParseShowNat(-i);
      assert ShowInt(i)[1..] == ShowNat(-i);
    } else {
      ParseShowNat(i);
    }
  }
}

=== FILE: dialects.dfy ===
/** The database adapters: how each backend quotes an identifier and which
    statement fetches the identifier of the last inserted row. The repository
    carries two sets of adapter classes; each class is one variant here. */
module Dialects {
  import opened Wrappers

  datatype Dialect =
    | Sqlite               // SqlAdapters/SqliteAdapter
    | MySql                // SqlAdapters/MySqlAdapter
    | SqlServer            // Adapters/SqlAdapter, "the SQL Server database adapter"
    | SqlServerEscapeOnly  // Adapters/SqlServerAdapter, no last-insert-id statement
    | MySqlEscapeOnly      // Adapters/MySqlAdapter, no last-insert-id statement

  /** `EscapeIdentifier`: the identifier wrapped in the backend's quotes, as is. */
  function EscapeIdentifier(d: Dialect, identifier: string): (r: string)
    ensures |r| == |identifier| + 2
    ensures r[0] == OpeningQuote(Style(d)) && r[|r| - 1] == ClosingQuote(Style(d))
    ensures r[1..|r| - 1] == identifier
  {
    match d
    case Sqlite => "\"" + identifier + "\""
    case MySql => "`" + identifier + "`"
    case SqlServer => "[" + identifier + "]"
    case SqlServerEscapeOnly => "[" + identifier + "]"
    case MySqlEscapeOnly => "`" + identifier + "`"
  }

  /** `LastInsertIdQuery`, for the adapters that have one. */
  function LastInsertIdQuery(d: Dialect): (q: Option<string>)
    ensures q.None? <==> d == SqlServerEscapeOnly || d == MySqlEscapeOnly
  {
    match d
    case Sqlite => Some("SELECT last_insert_rowid() AS " + EscapeIdentifier(Sqlite, "Id"))
    case MySql => Some("SELECT LAST_INSERT_ID()")
    case SqlServer => Some("SELECT SCOPE_IDENTITY()")
    case SqlServerEscapeOnly => None
    case MySqlEscapeOnly => None
  }

  /** The quoting families: double quotes, backticks, square brackets. */
  datatype QuoteStyle = DoubleQuotes | Backticks | Brackets

  function Style(d: Dialect): QuoteStyle
  {
    match d
    case Sqlite => DoubleQuotes
    case MySql | MySqlEscapeOnly => Backticks
    case SqlServer | SqlServerEscapeOnly => Brackets
  }

  function OpeningQuote(s: QuoteStyle): char
  {
    match s
    case DoubleQuotes => '"'
    case Backticks => '`'
    case Brackets => '['
  }

  function ClosingQuote(s: QuoteStyle): char
  {
    match s
    case DoubleQuotes => '"'
    case Backticks => '`'
    case Brackets => ']'
  }

  /** Escaping adds the two quotes and no other character, so a quote inside
      the identifier is not doubled. */
  lemma EscapeAddsOnlyQuotes(d: Dialect, identifier: string)
    ensures multiset(EscapeIdentifier(d, identifier))
      == multiset(identifier) + multiset{OpeningQuote(Style(d)), ClosingQuote(Style(d))}
  {
    var r := EscapeIdentifier(d, identifier);
    assert r == [OpeningQuote(Style(d))] + identifier + [ClosingQuote(Style(d))];
  }

  /** Strips the quotes of a style back off, when both are there. */
  function Unescape(s: QuoteStyle, escaped: string): Option<string>
  {
    if 2 <= |escaped| && escaped[0] == OpeningQuote(s) && escaped[|escaped| - 1] == ClosingQuote(s) then
      Some(escaped[1..|escaped| - 1])
    else
      None
  }

  /** Unescaping inverts escaping exactly: it recovers the identifier from
      its escaped form, and whatever it accepts is the escaped form of what it
      returns. */
  lemma UnescapeInverts(d: Dialect, identifier: string, escaped: string)
    ensures Unescape(Style(d), EscapeIdentifier(d, identifier)) == Some(identifier)
    ensures Unescape(Style(d), escaped) == Some(identifier) ==> EscapeIdentifier(d, identifier) == escaped
  {
    if Unescape(Style(d), escaped) == Some(identifier) {
      assert escaped == [escaped[0]] + escaped[1..|escaped| - 1] + [escaped[|escaped| - 1]];
      assert EscapeIdentifier(d, identifier) == [OpeningQuote(Style(d))] + identifier + [ClosingQuote(Style(d))];
    }
  }

  /** Two escaped identifiers coincide exactly when the quoting family and the
      identifier are the same: escaping is injective, and different families
      never produce the same text, since they start with different quotes. */
  lemma EscapeInjective(d: Dialect, d': Dialect, identifier: string, identifier': string)
    ensures EscapeIdentifier(d, identifier) == EscapeIdentifier(d', identifier')
      <==> Style(d) == Style(d') && identifier == identifier'
  {
    UnescapeInverts(d, identifier, EscapeIdentifier(d', identifier'));
    UnescapeInverts(d', identifier', EscapeIdentifier(d, identifier));
    if Style(d) == Style(d') && identifier == identifier' {
      assert EscapeIdentifier(d, identifier) == [OpeningQuote(Style(d))] + identifier + [ClosingQuote(Style(d))];
      assert EscapeIdentifier(d', identifier') == [OpeningQuote(Style(d'))] + identifier' + [ClosingQuote(Style(d'))];
    }
  }

  /** The duplicated adapter classes escape alike on every identifier. */
  lemma DuplicatesAgree(identifier: string)
    ensures EscapeIdentifier(SqlServerEscapeOnly, identifier) == EscapeIdentifier(SqlServer, identifier)
    ensures EscapeIdentifier(MySqlEscapeOnly, identifier) == EscapeIdentifier(MySql, identifier)
  {
  }

  /** Concrete cases: the three quoting families, an embedded closing quote
      left as it is, and the fixed last-insert-id statements. */
  lemma SampleEscapes()
    ensures EscapeIdentifier(MySql, "Foo") == "`Foo`"
    ensures EscapeIdentifier(Sqlite, "Foo") == "\"Foo\""
    ensures EscapeIdentifier(SqlServer, "Foo") == "[Foo]"
    ensures EscapeIdentifier(SqlServer, "a]b") == "[a]b]"
    ensures LastInsertIdQuery(MySql) == Some("SELECT LAST_INSERT_ID()")
    ensures LastInsertIdQuery(SqlServer) == Some("SELECT SCOPE_IDENTITY()")
  {
  }

  /** The SQLite statement names its column with the adapter's own quoting:
      a double-quoted `Id`. */
  lemma SqliteLastInsertId()
    ensures LastInsertIdQuery(Sqlite) == Some("SELECT last_insert_rowid() AS \"Id\"")
  {
    assert EscapeIdentifier(Sqlite, "Id") == "\"Id\"";
    assert "SELECT last_insert_rowid() AS " + "\"Id\"" == "SELECT last_insert_rowid() AS \"Id\"";
  }
}

=== FILE: entities.dfy ===
/** The static shape of an entity type, as the mapping code reads it through
    reflection: the type's bare name, its optional `[Table]` attribute and its
    properties in enumeration order, each with an optional `[Column]` name. */
module Entities {
  import opened Wrappers

  /** One property of an entity type. `column` is the `Name` of its
      `[Column]` attribute; a property without the attribute, or with one that
      gives no name, has `column == None`. */
  datatype Property = Property(name: string, column: Option<string>, isStatic: bool, isPublic: bool)

  /** An entity type: its bare name (`Type.Name`), the `Name` of its `[Table]`
      attribute if it has one, and the properties reflection enumerates for the
      type, in that order. */
  datatype EntityType = EntityType(name: string, table: Option<string>, properties: seq<Property>)

  /** `GetTableName<T>()`: the `[Table]` name when the attribute is present,
      otherwise the type's bare name. Total: resolution never fails. */
  function TableName(t: EntityType): (table: string)
    ensures t.table.Some? ==> table == t.table.value
    ensures t.table.None? ==> table == t.name
  {
    t.table.OrElse(t.name)
  }

  /** The table name is decided by the table attribute alone when there is one,
      and by the type's name alone otherwise; the properties never matter. */
  lemma TableNameResolution(t: EntityType)
    ensures t.table == Some(TableName(t)) || (t.table.None? && TableName(t) == t.name)
    ensures forall ps: seq<Property> :: TableName(t.(properties := ps)) == TableName(t)
    ensures t.table.Some? ==> forall n: string :: TableName(t.(name := n)) == TableName(t)
  {
  }

  /** A type without any mapping attribute maps to the table of its own name. */
  lemma PlainTypeTable(name: string, properties: seq<Property>)
    ensures TableName(EntityType(name, None, properties)) == name
  {
  }

  // Sample entity types of the test suite, as its fixtures declare them.

  /** `[Table("Entities")]` with `[Key, Column("Id")] EntityId`,
      `[Column("Name")] EntityName` and `[NotMapped] IsMapped`. */
  const AttributedEntity := EntityType("AttributedEntity", Some("Entities"), [
    Property("EntityId", Some("Id"), false, true),
    Property("EntityName", Some("Name"), false, true),
    Property("IsMapped", None, false, true)
  ])

  /** `Id`, `Name` and `IsMapped`, with no mapping attribute at all. */
  const PlainEntity := EntityType("PlainEntity", None, [
    Property("Id", None, false, true),
    Property("Name", None, false, true),
    Property("IsMapped", None, false, true)
  ])

  lemma SampleTableNames()
    ensures TableName(AttributedEntity) == "Entities"
    ensures TableName(PlainEntity) == "PlainEntity"
  {
  }
}

=== FILE: enum_handler.dfy ===
/** `StringEnumTypeHandler<T>`: stores an enumeration value as its name and
    reads it back with `Enum.Parse`. The parts of `Enum.Parse` and
    `Enum.ToString` the handler depends on are modelled here: member names,
    optional ASCII case folding, surrounding white space, and the decimal text
    of values that have no name. */
module StringEnumHandler {
  import opened Wrappers
  import opened Decimal
  import opened Search
  import opened DbValues

  /** One named member: its name and its underlying value. */
  datatype EnumMember = EnumMember(name: string, value: int)

  /** An enumeration type: its members in declaration order. Several members
      may share a value; a value need not belong to any member. */
  datatype EnumType = EnumType(members: seq<EnumMember>)

  /** What parsing needs of a member name, all of which the compiler
      guarantees of an identifier: it is not empty, does not start with a digit
      or a sign (so it is never read as a number), has no white space of any
      kind at either end (so trimming leaves it alone) and holds no comma (so
      it is not read as a list of names). Letters outside ASCII are allowed. */
  predicate ParsableName(name: string) {
    && 0 < |name|
    && !IsDigit(name[0]) && name[0] != '-' && name[0] != '+'
    && !AnyWhiteSpace(name[0]) && !AnyWhiteSpace(name[|name| - 1])
    && forall k :: 0 <= k < |name| ==> name[k] != ','
  }

  /** The characters `char.IsWhiteSpace` accepts, which `Enum.Parse` trims
      from each name it looks up. */
  predicate AnyWhiteSpace(c: char) {
    || '\t' <= c <= '\r' || c == ' ' || c == '\U{85}' || c == '\U{A0}' || c == '\U{1680}'
    || '\U{2000}' <= c <= '\U{200A}' || c == '\U{2028}' || c == '\U{2029}' || c == '\U{202F}'
    || c == '\U{205F}' || c == '\U{3000}'
  }

  /** An enumeration as the compiler accepts it: every member name parsable,
      and no two members sharing a name. */
  predicate WellFormed(e: EnumType) {
    && (forall i :: 0 <= i < |e.members| ==> ParsableName(e.members[i].name))
    && (forall i, j :: 0 <= i < j < |e.members| ==> e.members[i].name != e.members[j].name)
  }

  /** Text made of ASCII characters only, where the case folding below is the
      one .NET applies. */
  predicate AsciiText(s: string) {
    forall k :: 0 <= k < |s| ==> s[k] < 128 as char
  }

  /** Every member name is ASCII. */
  predicate AsciiNames(e: EnumType) {
    forall i :: 0 <= i < |e.members| ==> AsciiText(e.members[i].name)
  }

  function UpperAscii(c: char): char {
    if 'a' <= c <= 'z' then (c as int - 32) as char else c
  }

  /** Ordinal case folding, restricted to ASCII letters. */
  function Fold(s: string): (f: string)
    ensures |f| == |s|
  {
    seq(|s|, i requires 0 <= i < |s| => UpperAscii(s[i]))
  }

  /** Names still distinct once case is ignored. */
  predicate DistinctIgnoringCase(e: EnumType) {
    forall i, j :: 0 <= i < j < |e.members| ==> Fold(e.members[i].name) != Fold(e.members[j].name)
  }

  predicate NameEquals(name: string, text: string, ignoreCase: bool) {
    if ignoreCase then Fold(name) == Fold(text) else name == text
  }

  predicate IsWhiteSpace(c: char) {
    c == ' ' || c == '\t' || c == '\n' || c == '\r' || c == '\U{B}' || c == '\U{C}'
  }

  function TrimStart(s: string): string
  {
    if 0 < |s| && IsWhiteSpace(s[0]) then TrimStart(s[1..]) else s
  }

  function TrimEnd(s: string): string
  {
    if 0 < |s| && IsWhiteSpace(s[|s| - 1]) then TrimEnd(s[..|s| - 1]) else s
  }

  function Trim(s: string): string
  {
    TrimEnd(TrimStart(s))
  }

  /** `System.ArgumentException`: no member of that name, or nothing to parse. */
  datatype EnumError = ArgumentException

  /** `Enum.Parse(typeof(T), text, ignoreCase)`: after trimming, a decimal
      number is the value it spells; otherwise the value of a member whose name
      matches; otherwise an exception. Among several matching members (names
      that collide once case is ignored) the model takes the first declared;
      the contract promises only some matching member. */
  function EnumParse(e: EnumType, text: string, ignoreCase: bool): (r: Result<int, EnumError>)
    ensures ParseInt(Trim(text)).Some? ==> r == Success(ParseInt(Trim(text)).value)
    ensures ParseInt(Trim(text)).None? ==>
      (r.Failure? <==> forall i :: 0 <= i < |e.members| ==> !NameEquals(e.members[i].name, Trim(text), ignoreCase))
    ensures ParseInt(Trim(text)).None? && r.Success? ==>
      exists i :: 0 <= i < |e.members| && NameEquals(e.members[i].name, Trim(text), ignoreCase) && e.members[i].value == r.value
  {
    var s := Trim(text);
    match ParseInt(s)
    case Some(n) => Success(n)
    case None =>
      match FirstIndex(e.members, (m: EnumMember) => NameEquals(m.name, s, ignoreCase))
      case Some(i) => Success(e.members[i].value)
      case None => Failure(ArgumentException)
  }

  /** `Enum.ToString()`: the name of a member with that value, or the value in
      decimal when no member has it. Among several members sharing the value
      the model takes the first declared; the contract promises only some
      member with that value. */
  function EnumToString(e: EnumType, value: int): (r: string)
    ensures (exists i :: 0 <= i < |e.members| && e.members[i].value == value) ==>
      exists i :: 0 <= i < |e.members| && e.members[i].value == value && r == e.members[i].name
    ensures (forall i :: 0 <= i < |e.members| ==> e.members[i].value != value) ==> r == ShowInt(value)
  {
    match FirstIndex(e.members, (m: EnumMember) => m.value == value)
    case Some(i) => e.members[i].name
    case None => ShowInt(value)
  }

  /** The handler, with the flag its constructor takes. */
  datatype StringEnumTypeHandler = StringEnumTypeHandler(enumType: EnumType, ignoreCase: bool)

  /** `new StringEnumTypeHandler<T>()`: case-sensitive unless asked otherwise. */
  function NewStringEnumTypeHandler(e: EnumType): (h: StringEnumTypeHandler)
    ensures h.enumType == e && !h.ignoreCase
  {
    StringEnumTypeHandler(e, false)
  }

  /** `default(T)` of an enumeration: the value zero, whether or not a member has it. */
  const DefaultValue: int := 0

  /** `Parse`: a non-string or empty value reads as `default(T)`; a non-empty
      string goes to `Enum.Parse` with the handler's case flag, and its failure
      is not caught. */
  function Parse(h: StringEnumTypeHandler, value: DbValue): (r: Result<int, EnumError>)
    ensures ParseableText(value).None? ==> r == Success(DefaultValue)
    ensures ParseableText(value).Some? ==> r == EnumParse(h.enumType, value.text, h.ignoreCase)
  {
    match ParseableText(value)
    case Some(s) => EnumParse(h.enumType, s, h.ignoreCase)
    case None => Success(DefaultValue)
  }

  /** `SetValue`: `null` stays `null`, a value is stored as `ToString()`. */
  function SetValue(h: StringEnumTypeHandler, value: Option<int>): (stored: Option<string>)
    ensures stored.None? <==> value.None?
    ensures value.Some? ==> stored == Some(EnumToString(h.enumType, value.value))
  {
    Store(value, v => EnumToString(h.enumType, v))
  }

  /** Text that starts and ends with something other than white space is left
      alone by trimming. */
  lemma TrimUnchanged(s: string)
    requires 0 < |s| && !IsWhiteSpace(s[0]) && !IsWhiteSpace(s[|s| - 1])
    ensures Trim(s) == s
  {
  }

  lemma ShowIntShape(value: int)
    ensures var s := ShowInt(value); 0 < |s| && (IsDigit(s[0]) || s[0] == '-') && IsDigit(s[|s| - 1])
  {
    var digits := ShowNat(if value < 0 then -value else value);
    assert IsDigit(digits[|digits| - 1]);
    if value < 0 {
      assert ShowInt(value) == "-" + digits;
    }
  }

  /** Member `i` is the one and only member whose name matches `text`. */
  predicate SoleMatch(e: EnumType, text: string, ignoreCase: bool, i: nat) {
    && i < |e.members| && NameEquals(e.members[i].name, text, ignoreCase)
    && forall j :: 0 <= j < |e.members| && NameEquals(e.members[j].name, text, ignoreCase) ==> j == i
  }

  /** A parsable name is read by name alone: it fails exactly when no member
      matches it, otherwise gives the value of a matching member, and when
      exactly one member matches, that member's value. With case ignored,
      names and text are ASCII, where the model's folding is .NET's. */
  lemma ParseIdentifier(e: EnumType, name: string, ignoreCase: bool)
    requires ParsableName(name)
    requires ignoreCase ==> AsciiNames(e) && AsciiText(name)
    ensures EnumParse(e, name, ignoreCase).Failure? <==>
      forall i :: 0 <= i < |e.members| ==> !NameEquals(e.members[i].name, name, ignoreCase)
    ensures EnumParse(e, name, ignoreCase).Success? ==>
      exists i :: 0 <= i < |e.members| && NameEquals(e.members[i].name, name, ignoreCase)
        && e.members[i].value == EnumParse(e, name, ignoreCase).value
    ensures forall i: nat :: SoleMatch(e, name, ignoreCase, i) ==> EnumParse(e, name, ignoreCase) == Success(e.members[i].value)
  {
    TrimUnchanged(name);
    assert ParseInt(name).None?;
    forall i: nat | SoleMatch(e, name, ignoreCase, i)
      ensures EnumParse(e, name, ignoreCase) == Success(e.members[i].value)
    {
      assert NameEquals(e.members[i].name, name, ignoreCase);
      var k :| 0 <= k < |e.members| && NameEquals(e.members[k].name, name, ignoreCase)
        && e.members[k].value == EnumParse(e, name, ignoreCase).value;
    }
  }

  /** Member names are found again: with distinct names (ASCII names distinct
      ignoring case, when case is ignored), the name of member `i` parses to its value. */
  lemma ParseMemberName(e: EnumType, i: nat, ignoreCase: bool)
    requires WellFormed(e) && i < |e.members|
    requires ignoreCase ==> AsciiNames(e) && DistinctIgnoringCase(e)
    ensures EnumParse(e, e.members[i].name, ignoreCase) == Success(e.members[i].value)
  {
    var name := e.members[i].name;
    ParseIdentifier(e, name, ignoreCase);
    forall j | 0 <= j < |e.members| && j != i
      ensures !NameEquals(e.members[j].name, name, ignoreCase)
    {
      var lo, hi := if j < i then j else i, if j < i then i else j;
      assert e.members[lo].name != e.members[hi].name;
    }
  }

  /** What `SetValue` stores, `Parse` reads back as the same value, for every
      value of a well-formed enumeration, named or not. */
  lemma RoundTrip(h: StringEnumTypeHandler, value: int)
    requires WellFormed(h.enumType)
    requires h.ignoreCase ==> AsciiNames(h.enumType) && DistinctIgnoringCase(h.enumType)
    ensures SetValue(h, Some(value)).Some?
    ensures Parse(h, Text(SetValue(h, Some(value)).value)) == Success(value)
  {
    var e := h.enumType;
    if forall i :: 0 <= i < |e.members| ==> e.members[i].value != value {
      var s := ShowInt(value);
      ShowIntShape(value);
      TrimUnchanged(s);
      ParseShowInt(value);
    } else {
      var i :| 0 <= i < |e.members| && e.members[i].value == value && EnumToString(e, value) == e.members[i].name;
      ParseMemberName(e, i, h.ignoreCase);
    }
  }

  /** Names outside ASCII round-trip too under the default handler. */
  lemma NonAsciiName()
    ensures var h := NewStringEnumTypeHandler(EnumType([EnumMember("Größe", 1)]));
      Parse(h, Text(SetValue(h, Some(1)).value)) == Success(1)
  {
    var h := NewStringEnumTypeHandler(EnumType([EnumMember("Größe", 1)]));
    assert WellFormed(h.enumType);
    RoundTrip(h, 1);
  }

  /** A name that no member carries is an error, not `default(T)`. With case
      ignored, names and text are ASCII, as in `ParseIdentifier`. */
  lemma UnknownNameFails(h: StringEnumTypeHandler, name: string)
    requires ParsableName(name)
    requires h.ignoreCase ==> AsciiNames(h.enumType) && AsciiText(name)
    requires forall i :: 0 <= i < |h.enumType.members| ==> !NameEquals(h.enumType.members[i].name, name, h.ignoreCase)
    ensures Parse(h, Text(name)) == Failure(ArgumentException)
  {
    ParseIdentifier(h.enumType, name, h.ignoreCase);
  }

  /** The empty string and a non-string read as the value zero, so they cannot
      be told apart from a stored member whose value is zero. */
  lemma MissingReadsAsZero(h: StringEnumTypeHandler, i: nat)
    requires WellFormed(h.enumType) && (h.ignoreCase ==> AsciiNames(h.enumType) && DistinctIgnoringCase(h.enumType))
    requires i < |h.enumType.members| && h.enumType.members[i].value == 0
    ensures Parse(h, NonText) == Parse(h, Text("")) == Parse(h, Text(h.enumType.members[i].name)) == Success(0)
  {
    ParseMemberName(h.enumType, i, h.ignoreCase);
  }

  /** With case ignored a differently cased name still finds its member; by
      default it does not. */
  lemma CaseSensitivity()
    ensures var e := EnumType([EnumMember("Active", 1)]);
      && Parse(StringEnumTypeHandler(e, true), Text("ACTIVE")) == Success(1)
      && Parse(NewStringEnumTypeHandler(e), Text("ACTIVE")) == Failure(ArgumentException)
  {
    var e := EnumType([EnumMember("Active", 1)]);
    assert AsciiNames(e);
    assert Fold("Active") == Fold("ACTIVE");
    assert NameEquals(e.members[0].name, "ACTIVE", true);
    ParseIdentifier(e, "ACTIVE", true);
    ParseIdentifier(e, "ACTIVE", false);
  }
}

=== FILE: formatting.dfy ===
/** The two .NET string helpers the statement builder relies on:
    composite formatting (`string.Format`) restricted to plain `{index}`
    placeholders and `{{`/`}}` escapes, and `string.Join`. */
module Formatting {
  import opened Wrappers
  import opened Decimal

  /** `System.FormatException`: a malformed placeholder or an index past the arguments. */
  datatype FormatError = FormatException

  /** A text with no `{` or `}`: it formats to itself. */
  predicate NoBraces(s: string) {
    forall i :: 0 <= i < |s| ==> s[i] != '{' && s[i] != '}'
  }

  /** Prefixes `p` to a successful result; failures pass through. */
  function Prepend(p: string, r: Result<string, FormatError>): (r': Result<string, FormatError>)
    ensures r'.Success? <==> r.Success?
    ensures r.Success? ==> r'.value == p + r.value
  {
    match r
    case Success(s) => Success(p + s)
    case Failure(e) => Failure(e)
  }

  /** Number of leading decimal digits of `s`. */
  function LeadingDigits(s: string): (n: nat)
    ensures n <= |s| && AllDigits(s[..n])
    ensures n < |s| ==> !IsDigit(s[n])
  {
    if 0 < |s| && IsDigit(s[0]) then
      var n := 1 + LeadingDigits(s[1..]);
      assert s[..n] == [s[0]] + s[1..][..n - 1];
      n
    else 0
  }

  /** `string.Format(template, args)`: each `{i}` is replaced by `args[i]` as is,
      `{{` and `}}` stand for single braces, and everything else is copied. */
  function Format(template: string, args: seq<string>): (r: Result<string, FormatError>)
    ensures NoBraces(template) ==> r == Success(template)
    decreases |template|
  {
    if |template| == 0 then
      Success("")
    else if template[0] == '{' then
      if 1 < |template| && template[1] == '{' then
        Prepend("{", Format(template[2..], args))
      else
        var n := LeadingDigits(template[1..]);
        if 0 < n && n + 1 < |template| && template[n + 1] == '}' then
          assert template[1..][..n] == template[1..n + 1];
          var index := ParseDigits(template[1..n + 1]);
          if index < |args| then Prepend(args[index], Format(template[n + 2..], args))
          else Failure(FormatException)
        else
          Failure(FormatException)
    else if template[0] == '}' then
      if 1 < |template| && template[1] == '}' then
        Prepend("}", Format(template[2..], args))
      else
        Failure(FormatException)
    else
      assert template == template[..1] + template[1..];
      Prepend(template[..1], Format(template[1..], args))
  }

  /** Literal text without braces is copied to the output unchanged. */
  lemma {:induction false} FormatLiteral(literal: string, rest: string, args: seq<string>)
    requires NoBraces(literal)
    ensures Format(literal + rest, args) == Prepend(literal, Format(rest, args))
    decreases |literal|
  {
    if |literal| == 0 {
      assert literal + rest == rest;
      var r := Format(rest, args);
      if r.Success? {
        assert literal + r.value == r.value;
      }
    } else {
      var t := literal + rest;
      assert t[0] == literal[0] && literal[0] != '{' && literal[0] != '}';
      assert t[..1] == literal[..1];
      assert t[1..] == literal[1..] + rest;
      assert Format(t, args) == Prepend(literal[..1], Format(literal[1..] + rest, args));
      FormatLiteral(literal[1..], rest, args);
      PrependPrepend(literal[..1], literal[1..], Format(rest, args));
      assert literal == literal[..1] + literal[1..];
    }
  }

  lemma PrependPrepend(p: string, q: string, r: Result<string, FormatError>)
    ensures Prepend(p, Prepend(q, r)) == Prepend(p + q, r)
  {
    if r.Success? {
      assert p + (q + r.value) == (p + q) + r.value;
    }
  }

  /** A one-digit placeholder is replaced by the argument it names, verbatim:
      braces inside the argument are not interpreted. */
  lemma FormatHole(index: nat, rest: string, args: seq<string>)
    requires index < 10 && index < |args|
    ensures Format(['{', DigitChar(index), '}'] + rest, args) == Prepend(args[index], Format(rest, args))
  {
    var t := ['{', DigitChar(index), '}'] + rest;
    assert t[1..][0] == DigitChar(index);
    assert t[1..][1] == '}';
    assert LeadingDigits(t[1..]) == 1 by {
      assert t[1..][1..][0] == '}';
    }
    assert t[1..2] == [DigitChar(index)];
    assert ParseDigits(t[1..2]) == index by {
      assert t[1..2][..0] == [];
    }
    assert t[3..] == rest;
  }

  /** A placeholder naming an argument that is not there is a `FormatException`,
      whatever follows it. */
  lemma FormatIndexOutOfRange(index: nat, rest: string, args: seq<string>)
    requires index < 10 && |args| <= index
    ensures Format(['{', DigitChar(index), '}'] + rest, args) == Failure(FormatException)
  {
    var t := ['{', DigitChar(index), '}'] + rest;
    assert LeadingDigits(t[1..]) == 1 by {
      assert t[1..][0] == DigitChar(index);
      assert t[1..][1..][0] == '}';
    }
    assert ParseDigits(t[1..2]) == index by {
      assert t[1..2] == [DigitChar(index)];
      assert t[1..2][..0] == [];
    }
  }

  /** A closing brace that is not doubled is a `FormatException`. */
  lemma FormatStrayClose(rest: string, args: seq<string>)
    requires rest == [] || rest[0] != '}'
    ensures Format("}" + rest, args) == Failure(FormatException)
  {
    var t := "}" + rest;
    assert t[0] == '}';
    assert 1 < |t| ==> t[1] == rest[0];
  }

  /** `string.Format(literal + "{0}", table)` is `literal + table`. */
  lemma FormatOneHole(literal: string, argument: string)
    requires NoBraces(literal)
    ensures Format(literal + "{0}", [argument]) == Success(literal + argument)
  {
    FormatLiteral(literal, "{0}", [argument]);
    assert DigitChar(0) == '0';
    FormatHole(0, "", [argument]);
    assert ['{', DigitChar(0), '}'] + "" == "{0}";
    assert Format("", [argument]) == Success("");
    assert Format("{0}", [argument]) == Success(argument + "");
    assert argument + "" == argument;
  }

  /** Literal text followed by the second placeholder. */
  lemma FormatSecondHole(middle: string, first: string, second: string)
    requires NoBraces(middle)
    ensures Format(middle + ['{', DigitChar(1), '}'], [first, second]) == Success(middle + second)
  {
    var args := [first, second];
    FormatLiteral(middle, ['{', DigitChar(1), '}'], args);
    FormatHole(1, "", args);
    assert ['{', DigitChar(1), '}'] + "" == ['{', DigitChar(1), '}'];
    assert Format("", args) == Success("");
    assert second + "" == second;
  }

  /** Two one-digit placeholders separated by literal text. */
  lemma FormatTwoHoles(lead: string, middle: string, first: string, second: string)
    requires NoBraces(lead) && NoBraces(middle)
    ensures Format(lead + "{0}" + middle + "{1}", [first, second]) == Success(lead + first + middle + second)
  {
    var args := [first, second];
    var tail := middle + ['{', DigitChar(1), '}'];
    assert DigitChar(0) == '0' && DigitChar(1) == '1';
    assert lead + "{0}" + middle + "{1}" == lead + (['{', DigitChar(0), '}'] + tail);
    FormatLiteral(lead, ['{', DigitChar(0), '}'] + tail, args);
    FormatHole(0, tail, args);
    FormatSecondHole(middle, first, second);
    assert lead + (first + (middle + second)) == lead + first + middle + second;
  }

  /** `string.Join(separator, items)`: the items in order, separated. */
  function Join(separator: string, items: seq<string>): (r: string)
    ensures |items| > 0 ==> |r| == SumLengths(items) + (|items| - 1) * |separator|
  {
    if |items| == 0 then ""
    else if |items| == 1 then items[0]
    else items[0] + separator + Join(separator, items[1..])
  }

  function SumLengths(items: seq<string>): nat
  {
    if |items| == 0 then 0 else |items[0]| + SumLengths(items[1..])
  }

  /** Joining two non-empty lists one after the other is joining each and
      putting one separator between them: every item is written verbatim and
      in order, whatever characters it holds. */
  lemma {:induction false} JoinConcat(separator: string, xs: seq<string>, ys: seq<string>)
    requires 0 < |xs| && 0 < |ys|
    ensures Join(separator, xs + ys) == Join(separator, xs) + separator + Join(separator, ys)
    decreases |xs|
  {
    assert (xs + ys)[0] == xs[0];
    assert (xs + ys)[1..] == xs[1..] + ys;
    if |xs| > 1 {
      JoinConcat(separator, xs[1..], ys);
    }
  }
}

=== FILE: samples.dfy ===
/** The expectations of the test suite for the sample entity types, stated
    against the model. */
module Samples {
  import opened Entities
  import opened Statements

  lemma SampleCount()
    ensures Count(AttributedEntity).text == "SELECT COUNT(*) FROM Entities"
    ensures Count(PlainEntity).text == "SELECT COUNT(*) FROM PlainEntity"
  {
    SampleTableNames();
  }

  lemma SampleDeleteAll()
    ensures DeleteAll(AttributedEntity).text == "DELETE FROM Entities"
    ensures DeleteAll(PlainEntity).text == "DELETE FROM PlainEntity"
  {
    SampleTableNames();
  }

  lemma SampleTruncate()
    ensures Truncate(AttributedEntity).text == "TRUNCATE TABLE Entities"
    ensures Truncate(PlainEntity).text == "TRUNCATE TABLE PlainEntity"
  {
    SampleTableNames();
  }

  lemma SampleFetchAll()
    ensures FetchAll(AttributedEntity, []).text == "SELECT * FROM Entities"
    ensures FetchAll(PlainEntity, []).text == "SELECT * FROM PlainEntity"
  {
    SampleTableNames();
  }

  lemma SampleFetchAllColumnsAttributed()
    ensures FetchAll(AttributedEntity, ["Id AS Alias", "Name"]).text == "SELECT Id AS Alias, Name FROM Entities"
  {
    SampleTableNames();
    TwoColumnProjection("Id AS Alias", "Name");
  }

  lemma SampleFetchAllColumnsPlain()
    ensures FetchAll(PlainEntity, ["Id AS Alias", "Name"]).text == "SELECT Id AS Alias, Name FROM PlainEntity"
  {
    SampleTableNames();
    TwoColumnProjection("Id AS Alias", "Name");
    assert Projection(["Id AS Alias", "Name"]) == "Id AS Alias, Name";
    assert "SELECT " + "Id AS Alias, Name" + " FROM " + "PlainEntity" == "SELECT Id AS Alias, Name FROM PlainEntity";
  }
}

=== FILE: search.dfy ===
/** First-match search over a sequence, the shape of LINQ's `FirstOrDefault`
    with a predicate, which the column selector and the enumeration name
    lookup both perform. */
module Search {
  import opened Wrappers

  /** Index of the first element satisfying `p`, or `None` when none does. */
  function FirstIndex<T>(xs: seq<T>, p: T -> bool): (r: Option<nat>)
    ensures r.Some? ==> r.value < |xs| && p(xs[r.value])
    ensures r.Some? ==> forall j :: 0 <= j < r.value ==> !p(xs[j])
    ensures r.None? <==> forall j :: 0 <= j < |xs| ==> !p(xs[j])
  {
    if |xs| == 0 then None
    else if p(xs[0]) then Some(0)
    else
      match FirstIndex(xs[1..], p)
      case Some(i) => Some(i + 1)
      case None => None
  }

  /** The first match is determined: any index that satisfies `p` with no
      satisfying index before it is the one found. */
  lemma FirstIndexUnique<T>(xs: seq<T>, p: T -> bool, i: nat)
    requires i < |xs| && p(xs[i])
    requires forall j :: 0 <= j < i ==> !p(xs[j])
    ensures FirstIndex(xs, p) == Some(i)
  {
    var r := FirstIndex(xs, p);
    assert r.Some?;
    assert r.value == i;
  }
}

=== FILE: statements.dfy ===
/** The statements the table-level extension methods send: the count,
    delete-all and truncate templates formatted with the table name, and the
    fetch-all template formatted with a caller-chosen projection. Executing them
    is the connection's business and is not modelled; each operation here yields
    the command it would hand to Dapper. */
module Statements {
  import opened Wrappers
  import opened Formatting
  import opened Entities

  const CountQuery := "SELECT COUNT(*) FROM {0}"
  const DeleteAllQuery := "DELETE FROM {0}"
  const TruncateQuery := "TRUNCATE TABLE {0}"
  const FetchAllQuery := "SELECT {0} FROM {1}"

  /** The statements whose only argument is the table name. */
  datatype TableStatement = CountStatement | DeleteAllStatement | TruncateStatement

  function Template(k: TableStatement): string
  {
    match k
    case CountStatement => CountQuery
    case DeleteAllStatement => DeleteAllQuery
    case TruncateStatement => TruncateQuery
  }

  /** The fixed text in front of each template's placeholder. */
  function Lead(k: TableStatement): (lead: string)
    ensures NoBraces(lead)
  {
    match k
    case CountStatement => "SELECT COUNT(*) FROM "
    case DeleteAllStatement => "DELETE FROM "
    case TruncateStatement => "TRUNCATE TABLE "
  }

  /** The statement of kind `k` for `table`: the fixed text, then the table
      name verbatim, with no escaping and no other clause. */
  function Render(k: TableStatement, table: string): (sql: string)
    ensures |sql| == |Lead(k)| + |table|
    ensures Lead(k) <= sql && sql[|Lead(k)|..] == table
  {
    var sql := Lead(k) + table;
    assert sql[|Lead(k)|..] == table;
    sql
  }

  /** The rendered statement is exactly what `string.Format` makes of the
      source's template and the table name. */
  lemma RenderFormats(k: TableStatement, table: string)
    ensures Format(Template(k), [table]) == Success(Render(k, table))
  {
    FormatOneHole(Lead(k), table);
    assert Template(k) == Lead(k) + "{0}";
  }

  /** Reads the table name back out of a statement of kind `k`. */
  function TableOf(k: TableStatement, sql: string): Option<string>
  {
    var lead := Lead(k);
    if lead <= sql then Some(sql[|lead|..]) else None
  }

  /** A rendered statement is recognised as its own kind only, and gives back
      exactly the table it was rendered with. */
  lemma RenderRecognised(k: TableStatement, k': TableStatement, table: string)
    ensures TableOf(k', Render(k, table)) == if k == k' then Some(table) else None
  {
    var sql := Render(k, table);
    assert sql == Lead(k) + table;
    if k == k' {
      assert sql[|Lead(k)|..] == table;
    } else {
      assert sql[0] == Lead(k)[0] != Lead(k')[0];
    }
  }

  /** Two rendered statements coincide only for the same kind and the same table. */
  lemma RenderInjective(k: TableStatement, k': TableStatement, table: string, table': string)
    requires Render(k, table) == Render(k', table')
    ensures k == k' && table == table'
  {
    RenderRecognised(k, k, table);
    RenderRecognised(k', k, table');
  }

  /** The column list of a fetch-all: `*` when no column is given, otherwise
      the columns as the caller wrote them, joined by `", "`. The default `*`
      depends only on the column count: a single column, even an empty one, is
      used as is, and each join adds two characters. */
  function Projection(columns: seq<string>): (p: string)
    ensures |columns| == 0 ==> p == "*"
    ensures |columns| == 1 ==> p == columns[0]
    ensures |columns| > 0 ==> |p| == SumLengths(columns) + 2 * (|columns| - 1)
  {
    if |columns| > 0 then Join(", ", columns) else "*"
  }

  /** Position of the first `c` in `s`, or `|s|` when there is none. */
  function IndexOf(s: string, c: char): (i: nat)
    ensures i <= |s|
    ensures i < |s| ==> s[i] == c
    ensures forall j :: 0 <= j < i ==> s[j] != c
  {
    if |s| == 0 then 0 else if s[0] == c then 0 else 1 + IndexOf(s[1..], c)
  }

  /** Reads a projection back into columns: split at each comma and drop the
      one space the join put after it. */
  function SplitColumns(p: string): (columns: seq<string>)
    ensures 0 < |columns|
    decreases |p|
  {
    var i := IndexOf(p, ',');
    if i == |p| then [p]
    else if i + 1 < |p| && p[i + 1] == ' ' then [p[..i]] + SplitColumns(p[i + 2..])
    else [p[..i]] + SplitColumns(p[i + 1..])
  }

  predicate NoComma(column: string) {
    forall i :: 0 <= i < |column| ==> column[i] != ','
  }

  /** A comma-free column is read back whole. */
  lemma SplitSingle(column: string)
    requires NoComma(column)
    ensures SplitColumns(column) == [column]
  {
    assert IndexOf(column, ',') == |column|;
  }

  /** A comma-free column followed by `", "` is split off at that comma. */
  lemma SplitStep(head: string, tail: string)
    requires NoComma(head)
    ensures SplitColumns(head + ", " + tail) == [head] + SplitColumns(tail)
  {
    var p := head + ", " + tail;
    assert p[|head|] == ',';
    assert IndexOf(p, ',') == |head|;
    assert p[|head| + 1] == ' ';
    assert p[..|head|] == head;
    assert p[|head| + 2..] == tail;
  }

  /** Columns without commas survive the join unchanged and in order. */
  lemma {:induction false} SplitProjection(columns: seq<string>)
    requires 0 < |columns|
    requires forall i :: 0 <= i < |columns| ==> NoComma(columns[i])
    ensures SplitColumns(Projection(columns)) == columns
    decreases |columns|
  {
    if |columns| == 1 {
      SplitSingle(columns[0]);
    } else {
      var rest := columns[1..];
      assert Projection(columns) == columns[0] + ", " + Projection(rest);
      SplitStep(columns[0], Projection(rest));
      SplitProjection(rest);
      assert columns == [columns[0]] + rest;
    }
  }

  /** Appending a column appends `", "` and the column verbatim, so the
      projection of any list, commas inside columns included, is its columns
      in order with `", "` between each pair. */
  lemma ProjectionAppend(columns: seq<string>, column: string)
    requires 0 < |columns|
    ensures Projection(columns + [column]) == Projection(columns) + ", " + column
  {
    JoinConcat(", ", columns, [column]);
  }

  /** Columns are not validated: a comma inside one column and the `*` column
      itself make different lists render alike. */
  lemma ProjectionAmbiguous()
    ensures Projection(["Id, Name"]) == Projection(["Id", "Name"])
    ensures Projection(["*"]) == Projection([])
    ensures Projection([""]) == ""
  {
  }

  /** The fetch-all statement: the projection and the table, both verbatim. */
  function RenderFetchAll(columns: seq<string>, table: string): string
  {
    "SELECT " + Projection(columns) + " FROM " + table
  }

  /** The fetch-all statement is exactly what `string.Format` makes of the
      template with the projection and the table. */
  lemma RenderFetchAllFormats(columns: seq<string>, table: string)
    ensures Format(FetchAllQuery, [Projection(columns), table]) == Success(RenderFetchAll(columns, table))
  {
    FormatTwoHoles("SELECT ", " FROM ", Projection(columns), table);
    FetchAllTemplatePieces();
  }

  /** The fetch-all template, cut at its placeholders. */
  lemma FetchAllTemplatePieces()
    ensures FetchAllQuery == "SELECT " + "{0}" + " FROM " + "{1}"
  {
  }

  /** How the facade hands a statement to Dapper. */
  datatype Execution = ExecuteScalar | Execute | Query

  /** A statement together with the parameters bound to it. */
  datatype Command = Command(execution: Execution, text: string, parameters: seq<(string, string)>)

  /** `Count<T>()`: a scalar query of the count statement, nothing bound. */
  function Count(t: EntityType): (c: Command)
    ensures c.execution == ExecuteScalar && c.parameters == []
    ensures TableOf(CountStatement, c.text) == Some(TableName(t))
  {
    RenderRecognised(CountStatement, CountStatement, TableName(t));
    Command(ExecuteScalar, Render(CountStatement, TableName(t)), [])
  }

  /** `DeleteAll<T>()`: the delete-all statement, nothing bound. */
  function DeleteAll(t: EntityType): (c: Command)
    ensures c.execution == Execute && c.parameters == []
    ensures TableOf(DeleteAllStatement, c.text) == Some(TableName(t))
  {
    RenderRecognised(DeleteAllStatement, DeleteAllStatement, TableName(t));
    Command(Execute, Render(DeleteAllStatement, TableName(t)), [])
  }

  /** `Truncate<T>()`: the truncate statement, the same for every backend, nothing bound. */
  function Truncate(t: EntityType): (c: Command)
    ensures c.execution == Execute && c.parameters == []
    ensures TableOf(TruncateStatement, c.text) == Some(TableName(t))
  {
    RenderRecognised(TruncateStatement, TruncateStatement, TableName(t));
    Command(Execute, Render(TruncateStatement, TableName(t)), [])
  }

  /** `FetchAll<T>(columns)`: a row query selecting the projection from the table. */
  function FetchAll(t: EntityType, columns: seq<string>): (c: Command)
    ensures c.execution == Query && c.parameters == []
    ensures c.text == "SELECT " + Projection(columns) + " FROM " + TableName(t)
    ensures |c.text| == 13 + |Projection(columns)| + |TableName(t)|
  {
    Command(Query, RenderFetchAll(columns, TableName(t)), [])
  }

  /** `Count<T>()` sends exactly what `string.Format` makes of the count
      template and the resolved table name. */
  lemma CountText(t: EntityType)
    ensures Format(CountQuery, [TableName(t)]) == Success(Count(t).text)
    ensures Count(t).text == "SELECT COUNT(*) FROM " + TableName(t)
  {
    RenderFormats(CountStatement, TableName(t));
  }

  /** `DeleteAll<T>()` sends the delete-all template formatted with the table:
      no `WHERE` clause. */
  lemma DeleteAllText(t: EntityType)
    ensures Format(DeleteAllQuery, [TableName(t)]) == Success(DeleteAll(t).text)
    ensures DeleteAll(t).text == "DELETE FROM " + TableName(t)
  {
    RenderFormats(DeleteAllStatement, TableName(t));
  }

  /** `Truncate<T>()` sends the truncate template formatted with the table. */
  lemma TruncateText(t: EntityType)
    ensures Format(TruncateQuery, [TableName(t)]) == Success(Truncate(t).text)
    ensures Truncate(t).text == "TRUNCATE TABLE " + TableName(t)
  {
    RenderFormats(TruncateStatement, TableName(t));
  }

  /** `FetchAll<T>(columns)` sends the fetch-all template formatted with the
      projection and the table. */
  lemma FetchAllText(t: EntityType, columns: seq<string>)
    ensures Format(FetchAllQuery, [Projection(columns), TableName(t)]) == Success(FetchAll(t, columns).text)
    ensures FetchAll(t, columns).text == "SELECT " + Projection(columns) + " FROM " + TableName(t)
  {
    RenderFetchAllFormats(columns, TableName(t));
  }

  /** A caller-chosen projection can make fetch-all send the count statement. */
  lemma FetchAllCanCount(t: EntityType)
    ensures FetchAll(t, ["COUNT(*)"]).text == Count(t).text
  {
    assert Projection(["COUNT(*)"]) == "COUNT(*)";
    assert "SELECT " + "COUNT(*)" + " FROM " == "SELECT COUNT(*) FROM ";
  }

  lemma TwoColumnProjection(first: string, second: string)
    ensures Projection([first, second]) == first + ", " + second
  {
    var columns := [first, second];
    assert columns[1..] == [second];
    assert Join(", ", columns[1..]) == second;
    assert Join(", ", columns) == columns[0] + ", " + Join(", ", columns[1..]);
  }
}

=== FILE: uri_handler.dfy ===
/** `UriTypeHandler`: stores a URI as its string form and reads it back
    through the `Uri` constructor with the handler's `UriKind`. How `System.Uri`
    validates and normalises text is foreign code: it enters the model as a
    `UriLibrary` value whose two functions are arbitrary. */
module UriHandler {
  import opened Wrappers
  import opened DbValues

  /** `System.UriKind`. */
  datatype UriKind = RelativeOrAbsolute | Absolute | Relative

  /** `System.UriFormatException`: the text is not a URI of the requested kind. */
  datatype UriError = UriFormatException

  /** `new Uri(text, kind)` and `Uri.ToString()`, over some URI type `U`. */
  datatype UriLibrary<!U> = UriLibrary(create: (string, UriKind) -> Result<U, UriError>, show: U -> string)

  /** The handler, with the kind its constructor takes. */
  datatype UriTypeHandler = UriTypeHandler(kind: UriKind)

  /** `new UriTypeHandler(kind)`, where the argument may be left out: absolute
      URIs unless another kind is asked for. */
  function NewUriTypeHandler(kind: Option<UriKind>): (h: UriTypeHandler)
    ensures kind.None? ==> h.kind == Absolute
    ensures kind.Some? ==> h.kind == kind.value
  {
    UriTypeHandler(kind.OrElse(Absolute))
  }

  /** `Parse`: a non-string or empty value reads as `null`; a non-empty string
      becomes the URI the constructor builds with the handler's kind, and a
      constructor failure is not caught. */
  function Parse<U>(h: UriTypeHandler, lib: UriLibrary<U>, value: DbValue): (r: Result<Option<U>, UriError>)
    ensures r == Success(None) <==> ParseableText(value).None?
    ensures r.Failure? <==> ParseableText(value).Some? && lib.create(value.text, h.kind).Failure?
    ensures r.Success? && r.value.Some? ==> lib.create(value.text, h.kind) == Success(r.value.value)
  {
    match ParseableText(value)
    case None => Success(None)
    case Some(s) =>
      match lib.create(s, h.kind)
      case Success(u) => Success(Some(u))
      case Failure(e) => Failure(e)
  }

  /** `SetValue`: `null` stays `null`, a URI is stored as `ToString()`. */
  function SetValue<U>(lib: UriLibrary<U>, value: Option<U>): (stored: Option<string>)
    ensures stored.None? <==> value.None?
    ensures value.Some? ==> stored == Some(lib.show(value.value))
  {
    Store(value, lib.show)
  }

  /** The stored form of a URI reads back as that URI, provided the library
      rebuilds a URI from its own non-empty string form under the handler's kind. */
  lemma RoundTrip<U>(h: UriTypeHandler, lib: UriLibrary<U>, u: U)
    requires lib.show(u) != ""
    requires lib.create(lib.show(u), h.kind) == Success(u)
    ensures Parse(h, lib, Text(SetValue(lib, Some(u)).value)) == Success(Some(u))
  {
  }

  /** A URI whose string form is empty (a relative `new Uri("", UriKind.Relative)`,
      say) is stored as the empty string, which reads back as `null`: the round
      trip above needs its non-empty premise. */
  lemma EmptyFormReadsNull<U>(h: UriTypeHandler, lib: UriLibrary<U>, u: U)
    requires lib.show(u) == ""
    ensures SetValue(lib, Some(u)) == Some("")
    ensures Parse(h, lib, Text(SetValue(lib, Some(u)).value)) == Success(None)
  {
  }

  /** Text does not round-trip: with a library that accepts any text and
      prints it with a trailing `/` added, as `System.Uri` does for
      `https://belin.io`, the handler stores the normalised form. */
  lemma NormalisedText()
    ensures var lib := UriLibrary((s: string, k: UriKind) => Success(s), AddTrailingSlash);
      && Parse(NewUriTypeHandler(None), lib, Text("https://belin.io")) == Success(Some("https://belin.io"))
      && SetValue(lib, Some("https://belin.io")) == Some("https://belin.io/")
  {
    var lib := UriLibrary((s: string, k: UriKind) => Success(s), AddTrailingSlash);
    var u := "https://belin.io";
    assert u[|u| - 1] == 'o';
    assert u + "/" == "https://belin.io/";
    assert SetValue(lib, Some(u)) == Some(AddTrailingSlash(u));
  }

  function AddTrailingSlash(u: string): string
  {
    if 0 < |u| && u[|u| - 1] == '/' then u else u + "/"
  }
}

=== FILE: wrappers.dfy ===
/** Optional values and success-or-failure results, used where the source
    returns `null` or throws. */
module Wrappers {

  /** A value that may be absent: `None` stands for a C# `null`. */
  datatype Option<+T> = None | Some(value: T) {

    /** The wrapped value, or `fallback` when absent (the C# `??` operator). */
    function OrElse(fallback: T): T {
      match this
      case Some(v) => v
      case None => fallback
    }
  }

  /** The outcome of an operation that may throw: `Failure` carries the exception. */
  datatype Result<+R, +E> = Success(value: R) | Failure(error: E)
}
